=== FILE: README.md ===
# Advanced search panel: a Dafny model of its form state

The advanced search panel (`js/modules/advanced-search.js`) has two parts.

- **Text criteria.** An ordered list of rows. Each row has a search text, a field select, and (from the second row on) an operator select joining it to the row before.
- **A date criterion.** One of three modes, picked by the `dateType` radio:
  - `all`;
  - `set`: the last N months;
  - `between`: a start and an end date.

The script reads these into records and writes records back. It stores them in session storage, restores them on load and, on close, resets each half that has nothing stored. It also keeps a submit control, two error banners and an "add row" control in step with what the user types.

This project replaces the DOM by plain data. A `Form` record holds:

- the rows, each with its text, its field, its optional operator control, its error flag and its numeric id;
- whether the add control is hidden;
- whether the text banner is active;
- the date inputs, each with a value and an error flag;
- whether the date banner is shown;
- whether submit is enabled;
- whether the panel is open;
- whether the simple search is enabled.

Session storage is a map from the two storage keys to structured values. Every method of the module is a pure function from `Form` (and storage) to a new `Form`. A JavaScript `TypeError` becomes a `Failure`: for example, reading `criteria[i]` past the end, or an operator control that does not exist. String semantics follow JavaScript:

- `trim` strips the ECMAScript white-space and line-terminator set;
- `length` counts UTF-16 code units.

Modules, in dependency order:

- `Results`: `Option` and `Result`.
- `JsString`: `Trim` and `JsLength`.
- `FormState`: constants, entities, and operator controls in document order.
- `Validation`: the submit rule, the error flags and the banners.
- `TextRows`: adding and removing rows.
- `TextCriteria`: reading, writing and resetting the text criteria.
- `DateCriteria`: the same for the date criterion.
- `Session`: storage, the panel's open/close life cycle and submission.
- `Events`: the input handlers and what they guarantee together.

Three invariants are proved to be preserved by the row, criteria and input operations and by restoring, resetting, closing, toggling and submitting:

- the add control is hidden exactly when there are 5 or more rows;
- the text banner is active exactly when some row is flagged;
- the date banner is shown exactly when a range bound is flagged.

Behaviours of the code that the model keeps rather than corrects, each exhibited by a lemma:

- The row flag and the submit control measure the 200-character limit differently. The flag counts the raw value; submit counts the trimmed value. A 200-character text with one trailing space is flagged yet submittable (`Events.FlaggedRowCanBeSubmitted`).
- Closing the panel resets each half that has nothing stored: the rows when the text key is absent, the date when the date key is. After a submission both keys are stored, so a later close resets nothing (`Session.SubmitAdvancedSearch`). The reset of the rows re-decides the submit control only through its removals when there are more than three rows, and then for the first three rows' old texts, before the defaults are written (`TextRows.RemoveRowsAfterThird`, `TextCriteria.ClearTextCriteria`). With three rows or fewer it does not re-decide submit, so an enabled submit survives over emptied rows (`Events.CloseLeavesSubmitStale`). Choosing a month count checks the `set` radio by property, which fires no change event, so submit is not re-decided then either (`Events.LastMonthChangeLeavesSubmitStale`).
- A new row is numbered one past the current row count (advanced-search.js:266). After removing any row but the last, an added row repeats the last row's number (`TextRows.RemoveThenAddRepeatsId`).
- The code enforces no floor on the number of rows. A minimum of three is only implied: the clone reveals the template row's remove control (advanced-search.js:272), so that control starts hidden, and the reset keeps the first three rows (advanced-search.js:386). `RemoveCriteriaItem` therefore accepts any row, and the model follows the code. Writing criteria needs at least as many records as there are rows: it adds rows but never removes them, and with fewer records it throws.

## Model

| member | source | states |
|---|---|---|
| JsString.Trim | js/modules/advanced-search.js:571 | the trimmed value has no leading or trailing white space, is never longer, is empty exactly when the value is all white space, and is the value itself when already trimmed |
| JsString.TrimIsSlice | js/modules/advanced-search.js:320-322 | the trimmed value is a contiguous slice of the original with only white space cut from either end |
| JsString.JsLength | js/modules/advanced-search.js:576 | a string's length in UTF-16 code units lies between its character count and twice that |
| JsString.JsLengthOfBmp | js/modules/advanced-search.js:689 | for text within the Basic Multilingual Plane the length is the character count |
| JsString.TrimTrailingSpace | js/modules/advanced-search.js:571 | one trailing space is removed again by trimming |
| FormState.OpControlsAllPresent | js/modules/advanced-search.js:314 | when every row has an operator select, control i is row i's operator |
| FormState.OpControlsWellLaid | js/modules/advanced-search.js:264 | in the markup's layout (operator selects from the second row on) operator control i-1 belongs to row i and there are one fewer controls than rows |
| Validation.ScanTexts | js/modules/advanced-search.js:569-581 | the scan with its early exit reports "within limit" exactly when every trimmed text from row i on has at most 200 code units, and then reports text present exactly when some trimmed text is non-empty |
| Validation.ScanFromFirstRow | js/modules/advanced-search.js:569-581 | the scan from row 0 decides the limit and the presence of search text over all rows |
| Validation.SearchButtonDecision | js/modules/advanced-search.js:583-596 | submit is allowed exactly when there is search text or a date mode other than `all`, no trimmed text exceeds 200, and in `between` mode both bounds are filled and unflagged |
| Validation.SetStatusSearchButton | js/modules/advanced-search.js:558-597 | the submit control ends enabled exactly when the form is ready to submit; nothing else changes |
| Validation.ActivateTextError | js/modules/advanced-search.js:618-621 | the row is flagged and the text banner activated; other rows are untouched and the banner stays consistent with the flags |
| Validation.DeactivateTextError | js/modules/advanced-search.js:641-647 | the row's flag is cleared; the banner is switched off only when no row remains flagged, so consistency is kept |
| Validation.SetTextLimitation | js/modules/advanced-search.js:686-695 | the row is flagged exactly when its raw value exceeds 200 code units; other rows are untouched and the banner stays consistent |
| Validation.ValidateDateRange | js/modules/advanced-search.js:763-781 | the bound is flagged exactly when it is non-empty and fails the format check; a flag shows the date banner; the banner stays consistent with the flags |
| TextRows.AddCriteriaItem | js/modules/advanced-search.js:263-302 | with two or more rows one empty, unflagged row numbered count+1 is appended as a copy of the second row; the add control hides when the count reaches 5; the add-control, banner and layout invariants are kept |
| TextRows.AddCriteriaItems | js/modules/advanced-search.js:353-357 | adding k rows grows the list by k (none when k is not positive), keeps the existing rows as a prefix, and keeps the invariants |
| TextRows.RemoveCriteriaItem | js/modules/advanced-search.js:243-255 | exactly row k is removed; the add control is revealed below 5 rows; the text banner is cleared when no remaining row is flagged; submit is re-decided for the remaining rows; the invariants are kept |
| TextRows.RemoveKeepsLayout | js/modules/advanced-search.js:244 | removing a row other than the first keeps the markup's operator layout |
| TextRows.RemovedRowErrors | js/modules/advanced-search.js:250 | a flag left after a removal was there before it |
| TextRows.RemoveKeepsOrder | js/modules/advanced-search.js:244 | the rows before k stay in place and those after k move up by one |
| TextRows.RemoveThenAddRepeatsId | js/modules/advanced-search.js:266 | with rows numbered 1..n, removing a row other than the last and adding one repeats the last row's number |
| TextRows.RemoveRowsAfterThird | js/modules/advanced-search.js:386-388 | the reset's removals leave exactly the first three rows (none removed when there are at most three), reveal the add control, and keep the invariants; with more than three rows the last removal leaves submit enabled exactly when the first three rows as they stand are ready |
| TextCriteria.DefaultsCollected | js/modules/advanced-search.js:381-384 | the reset records are in the shape collection produces |
| TextCriteria.GetTextCriteria | js/modules/advanced-search.js:311-327 | one trimmed record per row; the first operator is empty and record i takes operator control i-1; fails exactly when there are too few operator controls; in the markup's layout record i's operator is row i's operator |
| TextCriteria.WriteOpsControls | js/modules/advanced-search.js:366-368 | writing operators into the controls in document order makes the first controls read back exactly what was written and leaves the rest |
| TextCriteria.WriteCriteriaControls | js/modules/advanced-search.js:363-369 | after the write loop, operator control i-1 holds record i's operator for every written row |
| TextCriteria.ApplyCriteria | js/modules/advanced-search.js:359-370 | the write loop succeeds exactly when there are enough records and operator controls; each row takes its record's text and field and each control its operator; ids, flags and layout are kept |
| TextCriteria.SetTextCriteria | js/modules/advanced-search.js:347-370 | grows the list to the record count (from two rows up), never shrinks it, writes texts, fields and operators row by row, and, for rows in the markup's layout (any count, including none or one), succeeds exactly when there are at least as many records as rows; only the rows and the add control change |
| TextCriteria.SetKeepsInvariants | js/modules/advanced-search.js:347-370 | writing criteria keeps the add-control, banner and layout invariants |
| TextCriteria.SetKeepsSkeleton | js/modules/advanced-search.js:347-370 | writing criteria keeps every existing row's id, flag and operator presence |
| TextCriteria.SetThenGet | js/modules/advanced-search.js:311-370 | collected records written into as many rows read back unchanged |
| TextCriteria.SetThenGetFromMarkup | js/modules/advanced-search.js:311-370 | in the markup's layout, collected records no fewer than the rows are written without error, fill exactly one row each, and read back unchanged |
| TextCriteria.ClearTextCriteria | js/modules/advanced-search.js:378-392 | from two or more rows in the markup's layout, the reset leaves three rows reading back as the default records (empty text, all fields, operators "", and, and), keeps the date and panel state, and leaves submit as it was when there were at most three rows; with more it leaves submit enabled exactly when the first three old rows were ready |
| TextCriteria.ClearKeepsInvariants | js/modules/advanced-search.js:378-392 | the reset reveals the add control and keeps the banner and layout invariants |
| DateCriteria.GetDateCriteria | js/modules/advanced-search.js:401-419 | the record's type is the checked radio and it carries only that mode's inputs |
| DateCriteria.SetDateCriteria | js/modules/advanced-search.js:439-453 | reading back what was written gives the record; only the inputs of the record's type change and the error flags are kept |
| DateCriteria.GetThenSet | js/modules/advanced-search.js:401-453 | writing back what was read changes nothing |
| DateCriteria.ClearDateCriteria | js/modules/advanced-search.js:461-466 | the reset reads back as `all` with six months and empty bounds, keeping the flags |
| Session.SaveCriteria | js/modules/advanced-search.js:497-500 | saving succeeds exactly when the text criteria can be collected, stores the collected text and date records under their keys, and keeps every other key |
| Session.RemoveCriteria | js/modules/advanced-search.js:508-511 | exactly the two criteria keys are removed and every other entry is kept |
| Session.ApplyStoredText | js/modules/advanced-search.js:478-480 | a stored text value is written as text criteria; a value of the wrong shape throws unless there are no rows |
| Session.ApplyStoredDate | js/modules/advanced-search.js:482-484 | a stored date value is written and reads back as itself, and the bounds' error flags are kept; a value of the wrong shape changes nothing |
| Session.SetCriteria | js/modules/advanced-search.js:474-489 | with nothing stored the form is untouched; each half is restored only from its own key; a stored text value gives the rows that writing it gives, and succeeds exactly when that write does; a date value under the text key throws unless there are no rows; when anything is restored the submit control is re-decided; only the rows, the add control, the date and submit can change, so the panel, the simple search, both banners and the bounds' error flags are kept, and a date-key value that is not a date record leaves the date inputs alone |
| Session.ClearCriteria | js/modules/advanced-search.js:519-530 | each half is reset to its defaults exactly when its key is absent, independently of the other; the panel state and date banner are kept; with the text key stored only the date can change, so submit and the text banner are kept at any row count; with at most three rows submit is kept; with more rows and no text key, submit is enabled exactly when the first three old rows were ready |
| Session.OpenSearchPanel | js/modules/advanced-search.js:201-204 | only the panel becomes open |
| Session.CloseSearchPanel | js/modules/advanced-search.js:212-217 | the panel closes and the simple search is enabled; with the text key stored the rows are kept and with the date key stored the date inputs are kept, each independently; the halves without a key are reset; only the rows, the add control, the text banner, the date and submit can change besides the two panel flags; with the text key stored submit and the text banner are kept, and without it and with more than three rows submit is enabled exactly when the first three old rows were ready |
| Session.ToggleSearchPanel | js/modules/advanced-search.js:225-234 | a closed panel opens with the simple search disabled; an open one closes with it enabled, resets the halves that have no stored value and keeps each half whose key is stored, with the same frame and submit rules as closing |
| Session.SubmitAdvancedSearch | js/modules/advanced-search.js:147-151 | submission succeeds exactly when the text criteria can be collected; it stores both keys as saving does, keeping every other storage entry, and closes the panel without resetting anything |
| Session.SaveThenRestore | js/modules/advanced-search.js:474-500 | criteria saved from one form and restored into a form in the markup's layout with no more rows read back as they were, and submit is decided for the restored values |
| Events.OnTextInput | js/modules/advanced-search.js:153-156 | after a text event, the row holds the new text, is flagged exactly when its raw length exceeds 200, other rows are unchanged, and submit is enabled exactly when the form is ready |
| Events.TextInputKeepsConsistent | js/modules/advanced-search.js:153-156 | a text event keeps the add-control and banner invariants |
| Events.OnDateTypeChange | js/modules/advanced-search.js:158-160 | after a mode change only the mode and the submit control change; submit is enabled exactly when the form is ready, and the invariants are kept |
| Events.OnDateInputChange | js/modules/advanced-search.js:162-165 | after a bound changes, the bound is flagged exactly when it is non-empty and badly formatted, submit is enabled exactly when the form is ready, and the invariants are kept; only that bound, the date banner and submit change |
| Events.OnLastMonthChange | js/modules/advanced-search.js:143-145 | a month-count change selects `set` mode with that count; the range bounds, the banners, the rows and the submit control are left as they were |
| Events.LimitBoundary | js/modules/advanced-search.js:576 | with one non-empty trimmed BMP text in `all` mode, submit is enabled exactly when the text has at most 200 characters and the row is flagged exactly when it has more |
| Events.FlaggedRowCanBeSubmitted | js/modules/advanced-search.js:686-695 | some text flags its row while the search stays submittable |
| Events.CloseLeavesSubmitStale | js/modules/advanced-search.js:212-217 | closing with nothing stored leaves an enabled submit over a form that is not ready |
| Events.LastMonthChangeLeavesSubmitStale | js/modules/advanced-search.js:143-145 | with no row holding text, a month-count change makes the form ready while submit stays disabled |
| Events.RangeEndDecidesSubmit | js/modules/advanced-search.js:583-587 | in `between` mode with a good start bound, an emptied end bound disables submit and a well-formatted one enables it |
| Events.RowChangesKeepConsistent | js/modules/advanced-search.js:243-302 | adding and removing rows keep the add-control and banner invariants |
| Events.RestoreKeepsConsistent | js/modules/advanced-search.js:474-489 | restoring from storage keeps the add-control and banner invariants |
| Events.ResetKeepsConsistent | js/modules/advanced-search.js:519-530 | resetting the halves without a stored value keeps the invariants |
| Events.CloseKeepsConsistent | js/modules/advanced-search.js:212-217 | closing the panel keeps the invariants |
| Events.ToggleKeepsConsistent | js/modules/advanced-search.js:225-234 | toggling the panel keeps the invariants |
| Events.SubmitKeepsConsistent | js/modules/advanced-search.js:147-151 | submitting keeps the invariants |

## Left out

- The jQuery and DOM plumbing is replaced by the `Form` record. Left out are selectors, class names, `name`/`id`/label `for` attributes, and event binding.
- The placeholder shim for browsers without `placeholder` support (advanced-search.js:281-297) only affects display.
- `setDatepicker` and the date-picker module are left out. The format check `dateFormat(value, 'DD/MM/YYYY')` is the parameter `validFormat`.
- The model fixes the default options. The constructor merges the caller's `options` over the defaults (advanced-search.js:87, 804), so a page can change the character limit (read at 576 and 689) and the two storage keys (read at 337, 429, 475-476, 509-510 and 520-521). `LimitCharacters`, `TextKey` and `DateKey` are those defaults.
- Session storage is a map from keys to structured values. JSON encoding and browser storage are left out. A stored value that is not valid JSON is not modelled.
- The search button's click handler cancels the browser's default submission (`e.preventDefault()`, advanced-search.js:148), and `submitAdvancedSearch` (advanced-search.js:789-793) only closes the panel. `SubmitAdvancedSearch` therefore ends with the saved storage and the closed form. Whatever runs the query elsewhere is not part of this model.
- `showTextError`'s message text and the simple-search button's disabling on an empty simple-search input are left out. The simple search is a single enabled flag.
- AddCriteriaItem: the new row takes the second row's current field and operator values. A jQuery clone does not carry a select's dynamically chosen option, so the browser may show the markup's default instead.
- SetTextCriteria: on failure the rows written before the throw are not kept. A `Failure` carries no partial form.
- GetTextCriteria: select values outside the markup's option lists are not excluded.
- SetThenGet: in the browser, assigning a select a value that is none of its options (advanced-search.js:365, 367) selects nothing, so the read-back holds only for option values. The model keeps the assigned value.
- SetThenGetFromMarkup: the same restriction to option values applies.
- SetDateCriteria: `.val(criteria.lastMonth)` (advanced-search.js:446) selects nothing for a month count that is not an option, so the read-back holds only for option values.
- The `dateType` radio group is assumed to have exactly one checked radio. The month-count select is assumed not to be an `input[type=text]`, so range validation never sees it.
- `webpack.config.js` and `datepicker.js` are not part of this model.

=== FILE: date_criteria.dfy ===
/**
 The date criterion: which `dateType` radio is checked and the inputs that
 belong to it, read into a record, written back from one, and reset.
 */
module DateCriteria {
  import opened FormState

  /** The record's type matches the checked radio. */
  predicate TypeMatches(c: DateCriterion, mode: DateType) {
    match c
    case AnyDate => mode == All
    case WithinMonths(_) => mode == LastMonths
    case InRange(_, _) => mode == Between
  }

  /**
   Reads the checked radio and only the inputs of that mode: none for `all`,
   the month count for `set`, both bounds for `between`.
   */
  function GetDateCriteria(d: DateInputs): (c: DateCriterion)
    ensures TypeMatches(c, d.mode)
    ensures c.WithinMonths? ==> c.lastMonth == d.lastMonth
    ensures c.InRange? ==> c.dateStart == d.start.value && c.dateEnd == d.end.value
  {
    match d.mode
    case All => AnyDate
    case LastMonths => WithinMonths(d.lastMonth)
    case Between => InRange(d.start.value, d.end.value)
  }

  /**
   Checks the radio of the record's type and fills in that type's inputs;
   every other input, and every error flag, keeps its value.
   */
  function SetDateCriteria(d: DateInputs, c: DateCriterion): (d': DateInputs)
    ensures GetDateCriteria(d') == c
    ensures d'.start.error == d.start.error && d'.end.error == d.end.error
    ensures d'.lastMonth == (if c.WithinMonths? then c.lastMonth else d.lastMonth)
    ensures d'.start.value == (if c.InRange? then c.dateStart else d.start.value)
    ensures d'.end.value == (if c.InRange? then c.dateEnd else d.end.value)
  {
    match c
    case AnyDate => d.(mode := All)
    case WithinMonths(m) => d.(mode := LastMonths, lastMonth := m)
    case InRange(s, e) =>
      d.(mode := Between, start := d.start.(value := s), end := d.end.(value := e))
  }

  /** Writing back what was read leaves the inputs as they were. */
  lemma GetThenSet(d: DateInputs)
    ensures SetDateCriteria(d, GetDateCriteria(d)) == d
  {
  }

  /**
   Resets to `all`, six months and empty bounds; the error flags are not
   touched.
   */
  function ClearDateCriteria(d: DateInputs): (d': DateInputs)
    ensures GetDateCriteria(d') == AnyDate
    ensures d'.lastMonth == DefaultLastMonth
    ensures d'.start == d.start.(value := "") && d'.end == d.end.(value := "")
  {
    d.(mode := All, lastMonth := DefaultLastMonth,
       start := d.start.(value := ""), end := d.end.(value := ""))
  }
}

=== FILE: events.dfy ===
/**
 The handlers bound to the panel's inputs, each a composition of the
 operations above, and what they guarantee together: the submit control
 follows the readiness rule after every text, date-type and range-bound
 change, and the banners and the add control stay in step with what they
 report.
 */
module Events {
  import opened Results
  import opened JsString
  import opened FormState
  import opened Validation
  import opened TextRows
  import opened TextCriteria
  import opened Session

  /** Everything the panel shows about itself agrees with its contents. */
  predicate Consistent(f: Form) {
    AddControlConsistent(f) && TextBannerConsistent(f) && DateBannerConsistent(f)
  }

  /** Readiness looks at the texts and the date only, never at error flags. */
  lemma ReadinessIgnoresFlags(rows: seq<Row>, rows': seq<Row>, d: DateInputs)
    requires |rows| == |rows'|
    requires forall i :: 0 <= i < |rows| ==> rows'[i].text == rows[i].text
    ensures ReadyToSubmit(rows', d) <==> ReadyToSubmit(rows, d)
  {
    assert HasSearchText(rows') <==> HasSearchText(rows) by {
      if HasSearchText(rows) {
        var i :| 0 <= i < |rows| && Trim(rows[i].text) != [];
        assert Trim(rows'[i].text) != [];
      }
      if HasSearchText(rows') {
        var i :| 0 <= i < |rows'| && Trim(rows'[i].text) != [];
        assert Trim(rows[i].text) != [];
      }
    }
  }

  /**
   A keyup, change or input event on row `k`'s text: the submit control is
   re-decided, then the row's character limit is checked.
   */
  function OnTextInput(f: Form, k: nat, text: string): (g: Form)
    requires k < |f.rows|
    ensures |g.rows| == |f.rows| && g.rows[k] == f.rows[k].(text := text, error := g.rows[k].error)
    ensures g.rows[k].error <==> JsLength(text) > LimitCharacters
    ensures forall i :: 0 <= i < |f.rows| && i != k ==> g.rows[i] == f.rows[i]
    ensures g == f.(rows := g.rows, textBanner := g.textBanner, submitEnabled := g.submitEnabled)
    ensures g.submitEnabled <==> ReadyToSubmit(g.rows, g.date)
  {
    var f1 := f.(rows := f.rows[k := f.rows[k].(text := text)]);
    var g := SetTextLimitation(SetStatusSearchButton(f1), k);
    ReadinessIgnoresFlags(f1.rows, g.rows, f.date);
    g
  }

  /** A text event keeps the banners and the add control in step. */
  lemma TextInputKeepsConsistent(f: Form, k: nat, text: string)
    requires k < |f.rows| && Consistent(f)
    ensures Consistent(OnTextInput(f, k, text))
  {
    var f1 := f.(rows := f.rows[k := f.rows[k].(text := text)]);
    assert AnyRowError(f1.rows) <==> AnyRowError(f.rows) by {
      if AnyRowError(f.rows) {
        var i :| 0 <= i < |f.rows| && f.rows[i].error;
        assert f1.rows[i].error;
      }
      if AnyRowError(f1.rows) {
        var i :| 0 <= i < |f1.rows| && f1.rows[i].error;
        assert f.rows[i].error;
      }
    }
    assert TextBannerConsistent(SetStatusSearchButton(f1));
  }

  /** A change of the `dateType` radio: the submit control is re-decided. */
  function OnDateTypeChange(f: Form, mode: DateType): (g: Form)
    ensures g.date == f.date.(mode := mode) && g.rows == f.rows
    ensures g == f.(date := f.date.(mode := mode), submitEnabled := g.submitEnabled)
    ensures g.submitEnabled <==> ReadyToSubmit(g.rows, g.date)
    ensures Consistent(f) ==> Consistent(g)
  {
    SetStatusSearchButton(f.(date := f.date.(mode := mode)))
  }

  /**
   A change of a range-bound input to `value`: the bound is validated, then
   the submit control is re-decided.
   */
  function OnDateInputChange(f: Form, b: Bound, value: string, validFormat: string -> bool): (g: Form)
    ensures g.date.Input(b).value == value && g.date.mode == f.date.mode && g.rows == f.rows
    ensures g.date.Input(b).error <==> value != [] && !validFormat(value)
    ensures g.date == f.date.WithInput(b, DateInput(value, g.date.Input(b).error))
    ensures g == f.(date := g.date, dateBanner := g.dateBanner, submitEnabled := g.submitEnabled)
    ensures g.submitEnabled <==> ReadyToSubmit(g.rows, g.date)
    ensures Consistent(f) ==> Consistent(g)
  {
    var f1 := f.(date := f.date.WithInput(b, f.date.Input(b).(value := value)));
    SetStatusSearchButton(ValidateDateRange(f1, b, validFormat))
  }

  /**
   A change of the month count: checks the `set` radio by property, which
   fires no change event, so the submit control is not re-decided.
   */
  function OnLastMonthChange(f: Form, lastMonth: string): (g: Form)
    ensures g.date.mode == LastMonths && g.date.lastMonth == lastMonth
    ensures g.submitEnabled == f.submitEnabled && g.rows == f.rows
    ensures g == f.(date := g.date) && g.date.start == f.date.start && g.date.end == f.date.end
    ensures Consistent(f) ==> Consistent(g)
  {
    f.(date := f.date.(mode := LastMonths, lastMonth := lastMonth))
  }

  /**
   The character-limit boundary: when row `k` is the only one with text, in
   `all` mode, and its text is trimmed and within the BMP, the search can be
   submitted exactly when the text has at most 200 characters, and the row
   is flagged exactly when it has more.
   */
  lemma LimitBoundary(f: Form, k: nat, text: string)
    requires k < |f.rows|
    requires forall i :: 0 <= i < |f.rows| && i != k ==> Trim(f.rows[i].text) == []
    requires f.date.mode == All
    requires IsTrimmed(text) && text != []
    requires forall i :: 0 <= i < |text| ==> text[i] as int < 0x1_0000
    ensures OnTextInput(f, k, text).submitEnabled <==> |text| <= LimitCharacters
    ensures OnTextInput(f, k, text).rows[k].error <==> |text| > LimitCharacters
  {
    JsLengthOfBmp(text);
    var g := OnTextInput(f, k, text);
    assert Trim(g.rows[k].text) == text;
    assert HasSearchText(g.rows);
    if |text| <= LimitCharacters {
      forall i | 0 <= i < |g.rows|
        ensures JsLength(Trim(g.rows[i].text)) <= LimitCharacters
      {
        if i != k { assert g.rows[i] == f.rows[i]; }
      }
    }
  }

  /**
   The two limit checks measure different things: the row flag counts the
   raw value, the submit control the trimmed one. A 200-character text with
   one trailing space flags its row while the search stays submittable.
   */
  lemma FlaggedRowCanBeSubmitted()
    ensures exists f: Form, text: string ::
      |f.rows| == 1 && OnTextInput(f, 0, text).rows[0].error && OnTextInput(f, 0, text).submitEnabled
  {
    var s := seq(LimitCharacters, _ => 'a');
    var text := s + [' '];
    TrimTrailingSpace(s);
    JsLengthOfBmp(s);
    JsLengthOfBmp(text);
    var d := DateInputs(All, DefaultLastMonth, DateInput("", false), DateInput("", false));
    var f := Form([Row("", DefaultField, None, false, 1)], false, false, d, false, false, true, false);
    var g := OnTextInput(f, 0, text);
    assert Trim(g.rows[0].text) == s;
    assert HasSearchText(g.rows);
  }

  /**
   Closing the panel with nothing saved resets the form but does not
   re-decide the submit control: a submit enabled by text typed before the
   close stays enabled over the emptied rows.
   */
  lemma CloseLeavesSubmitStale(f: Form, s: Storage)
    requires f.panelOpen && f.submitEnabled
    requires WellLaid(f.rows) && 2 <= |f.rows| <= 3
    requires TextKey !in s && DateKey !in s
    ensures ToggleSearchPanel(f, s).Success?
    ensures var g := ToggleSearchPanel(f, s).value;
      g.submitEnabled && !ReadyToSubmit(g.rows, g.date)
  {
    var g := ToggleSearchPanel(f, s).value;
    DefaultsHaveNoText(g.rows);
  }

  /** Rows that read back as the defaults hold no search text. */
  lemma DefaultsHaveNoText(rows: seq<Row>)
    requires GetTextCriteria(rows) == Success(DefaultCriteria)
    ensures !HasSearchText(rows)
  {
    var c := GetTextCriteria(rows).value;
    assert |rows| == |c| == 3;
    forall i | 0 <= i < |rows|
      ensures Trim(rows[i].text) == []
    {
      assert c[i].text == Trim(rows[i].text);
      assert c[i] == DefaultCriteria[i];
    }
  }

  /**
   Changing the month count from `all` mode with no text makes the form
   ready but leaves the submit control disabled until another event.
   */
  lemma LastMonthChangeLeavesSubmitStale(f: Form, lastMonth: string)
    requires forall i :: 0 <= i < |f.rows| ==> Trim(f.rows[i].text) == []
    requires f.date.mode == All && !f.submitEnabled
    ensures var g := OnLastMonthChange(f, lastMonth);
      ReadyToSubmit(g.rows, g.date) && !g.submitEnabled
  {
  }

  /**
   In `between` mode with a valid start bound and text within the limit,
   the end bound decides: emptying it disables the submit control, a value
   that passes the format check enables it.
   */
  lemma RangeEndDecidesSubmit(f: Form, value: string, validFormat: string -> bool)
    requires f.date.mode == Between && f.date.start.value != [] && !f.date.start.error
    requires TextWithinLimit(f.rows)
    ensures !OnDateInputChange(f, End, "", validFormat).submitEnabled
    ensures value != [] && validFormat(value) ==> OnDateInputChange(f, End, value, validFormat).submitEnabled
  {
  }

  /** Adding and removing rows keeps the panel consistent. */
  lemma RowChangesKeepConsistent(f: Form, k: nat)
    requires Consistent(f) && k < |f.rows|
    ensures Consistent(AddCriteriaItem(f))
    ensures Consistent(RemoveCriteriaItem(f, k))
  {
  }

  /** Consistency depends only on the rows, the date flags and the three controls it relates. */
  lemma ConsistentFrame(f: Form, g: Form)
    requires g.rows == f.rows && g.addHidden == f.addHidden && g.textBanner == f.textBanner
    requires g.dateBanner == f.dateBanner
    requires g.date.start.error == f.date.start.error && g.date.end.error == f.date.end.error
    ensures Consistent(f) ==> Consistent(g)
  {
  }

  /** Restoring from storage keeps the panel consistent. */
  lemma RestoreKeepsConsistent(f: Form, s: Storage)
    ensures Consistent(f) && SetCriteria(f, s).Success? ==> Consistent(SetCriteria(f, s).value)
  {
    if Consistent(f) && SetCriteria(f, s).Success? {
      RestoreHalvesKeepConsistent(f, s);
      var f2 := RestoreHalves(f, s).value;
      assert SetCriteria(f, s).value == f2.(submitEnabled := SetCriteria(f, s).value.submitEnabled);
    }
  }

  lemma RestoreHalvesKeepConsistent(f: Form, s: Storage)
    requires Consistent(f) && RestoreHalves(f, s).Success?
    ensures Consistent(RestoreHalves(f, s).value)
  {
    var f1 := if TextKey in s then ApplyStoredText(f, s[TextKey]).value else f;
    if TextKey in s { StoredTextKeepsConsistent(f, s[TextKey]); }
    if DateKey in s { StoredDateKeepsConsistent(f1, s[DateKey]); }
  }

  lemma StoredTextKeepsConsistent(f: Form, v: Stored)
    requires Consistent(f) && ApplyStoredText(f, v).Success?
    ensures Consistent(ApplyStoredText(f, v).value)
  {
    if v.StoredText? {
      SetKeepsInvariants(f, v.criteria);
    }
  }

  lemma StoredDateKeepsConsistent(f: Form, v: Stored)
    requires Consistent(f)
    ensures Consistent(f.(date := ApplyStoredDate(f.date, v)))
  {
  }

  /** Resetting the halves that have nothing stored keeps the panel consistent. */
  lemma ResetKeepsConsistent(f: Form, s: Storage)
    ensures Consistent(f) && ClearCriteria(f, s).Success? ==> Consistent(ClearCriteria(f, s).value)
  {
    if Consistent(f) && ClearCriteria(f, s).Success? && TextKey !in s {
      ClearKeepsInvariants(f);
    }
  }

  /** Closing the panel keeps it consistent: it resets only what has nothing stored. */
  lemma CloseKeepsConsistent(f: Form, s: Storage)
    requires Consistent(f)
    ensures CloseSearchPanel(f, s).Success? ==> Consistent(CloseSearchPanel(f, s).value)
  {
    var f0 := f.(panelOpen := false);
    ConsistentFrame(f, f0);
    ResetKeepsConsistent(f0, s);
    if ClearCriteria(f0, s).Success? {
      assert CloseSearchPanel(f, s).value == ClearCriteria(f0, s).value.(simpleSearchEnabled := true);
    }
  }

  /** Toggling the panel keeps it consistent in both directions. */
  lemma ToggleKeepsConsistent(f: Form, s: Storage)
    requires Consistent(f)
    ensures ToggleSearchPanel(f, s).Success? ==> Consistent(ToggleSearchPanel(f, s).value)
  {
    if f.panelOpen {
      var f0 := f.(simpleSearchEnabled := true);
      ConsistentFrame(f, f0);
      CloseKeepsConsistent(f0, s);
    } else {
      ConsistentFrame(f, ToggleSearchPanel(f, s).value);
    }
  }

  /** Submitting keeps the panel consistent: both keys are stored, so nothing is reset. */
  lemma SubmitKeepsConsistent(f: Form, s: Storage)
    requires Consistent(f)
    ensures SubmitAdvancedSearch(f, s).Success? ==> Consistent(SubmitAdvancedSearch(f, s).value.0)
  {
    if SubmitAdvancedSearch(f, s).Success? {
      ConsistentFrame(f, SubmitAdvancedSearch(f, s).value.0);
    }
  }
}

=== FILE: form_state.dfy ===
/**
 The advanced-search panel's state with the DOM replaced by plain data: the
 text-criteria rows, the add control, the two error banners, the date inputs,
 the submit control, the panel itself, and the records the panel reads and
 writes to session storage.
 */
module FormState {
  import opened Results
  import opened JsString

  /** `limitCharacters`: the longest search text a row may hold. */
  const LimitCharacters := 200

  /** Row count at which the add control is hidden. */
  const MaxRows := 5

  /** Session-storage keys of the text and the date criteria. */
  const TextKey := "advancedSearchTextCriteria"
  const DateKey := "advancedSearchDateCriteria"

  /** Values the reset writes back. */
  const DefaultField := "all-fields"
  const DefaultOperator := "and"
  const DefaultLastMonth := "6"

  /**
   One text-criteria row: its text input, its field select, its operator
   select when it has one (the first row does not), the text input's `error`
   class, and the number in the inputs' `id`/`name` attributes.
   */
  datatype Row = Row(text: string, field: string, op: Option<string>, error: bool, id: nat)

  /** The checked `dateType` radio: `all`, `set` or `between`. */
  datatype DateType = All | LastMonths | Between

  /** A range-bound text input: its value and its `error` class. */
  datatype DateInput = DateInput(value: string, error: bool)

  datatype Bound = Start | End

  datatype DateInputs = DateInputs(mode: DateType, lastMonth: string, start: DateInput, end: DateInput) {

    function Input(b: Bound): DateInput {
      match b
      case Start => start
      case End => end
    }

    function WithInput(b: Bound, x: DateInput): (d: DateInputs)
      ensures d.Input(b) == x
      ensures forall b' :: b' != b ==> d.Input(b') == Input(b')
      ensures d.mode == mode && d.lastMonth == lastMonth
    {
      match b
      case Start => this.(start := x)
      case End => this.(end := x)
    }
  }

  /**
   The whole panel: rows, the add control's `hidden` class, the text banner's
   `activate` class, the date inputs, the date banner's `visible` class, the
   submit control's enabled state, the panel's `visible` class and whether the
   simple search form is enabled.
   */
  datatype Form = Form(
    rows: seq<Row>,
    addHidden: bool,
    textBanner: bool,
    date: DateInputs,
    dateBanner: bool,
    submitEnabled: bool,
    panelOpen: bool,
    simpleSearchEnabled: bool)

  /** A text criterion as collected for storage. */
  datatype Criterion = Criterion(text: string, field: string, operator: string)

  /** A date criterion as collected for storage: only the fields of its type. */
  datatype DateCriterion =
    | AnyDate
    | WithinMonths(lastMonth: string)
    | InRange(dateStart: string, dateEnd: string)

  /** A parsed session-storage value. */
  datatype Stored = StoredText(criteria: seq<Criterion>) | StoredDate(date: DateCriterion)

  type Storage = map<string, Stored>

  /** The operator selects of `rows`, in document order. */
  function OpControls(rows: seq<Row>): (ops: seq<string>)
    ensures |ops| <= |rows|
  {
    if rows == [] then []
    else (match rows[0].op case Some(o) => [o] case None => []) + OpControls(rows[1..])
  }

  /** The markup's layout: the first row has no operator select, every later row has one. */
  predicate WellLaid(rows: seq<Row>) {
    && (|rows| > 0 ==> rows[0].op.None?)
    && forall i :: 1 <= i < |rows| ==> rows[i].op.Some?
  }

  predicate AnyRowError(rows: seq<Row>) {
    exists i :: 0 <= i < |rows| && rows[i].error
  }

  /** Rows with the same operator selects have the same operator controls. */
  lemma {:induction false} OpControlsOfSameOps(rows: seq<Row>, rows': seq<Row>)
    requires |rows| == |rows'|
    requires forall i :: 0 <= i < |rows| ==> rows[i].op == rows'[i].op
    ensures OpControls(rows) == OpControls(rows')
    decreases |rows|
  {
    if rows != [] {
      OpControlsOfSameOps(rows[1..], rows'[1..]);
    }
  }

  /** Every row has an operator select: the controls are the rows' operators, one each. */
  lemma {:induction false} OpControlsAllPresent(rows: seq<Row>)
    requires forall i :: 0 <= i < |rows| ==> rows[i].op.Some?
    ensures |OpControls(rows)| == |rows|
    ensures forall i :: 0 <= i < |rows| ==> OpControls(rows)[i] == rows[i].op.value
    decreases |rows|
  {
    if rows != [] {
      OpControlsAllPresent(rows[1..]);
    }
  }

  /** In the markup's layout operator control i-1 belongs to row i. */
  lemma OpControlsWellLaid(rows: seq<Row>)
    ensures WellLaid(rows) && |rows| > 0 ==>
      && |OpControls(rows)| == |rows| - 1
      && forall i :: 1 <= i < |rows| ==> OpControls(rows)[i - 1] == rows[i].op.value
  {
    if WellLaid(rows) && |rows| > 0 {
      OpControlsAllPresent(rows[1..]);
      assert OpControls(rows) == OpControls(rows[1..]);
    }
  }
}

=== FILE: js_string.dfy ===
/**
 The two string primitives the form logic leans on, as a browser's JavaScript
 engine defines them: `String.prototype.trim` and the `length` property, which
 counts UTF-16 code units rather than characters.
 */
module JsString {

  /** ECMAScript WhiteSpace and LineTerminator code points: exactly what `trim` strips. */
  predicate IsWhitespace(c: char) {
    var n := c as int;
    || (0x09 <= n <= 0x0D)
    || n == 0x20 || n == 0xA0 || n == 0x1680
    || (0x2000 <= n <= 0x200A)
    || n == 0x2028 || n == 0x2029 || n == 0x202F || n == 0x205F
    || n == 0x3000 || n == 0xFEFF
  }

  predicate AllWhitespace(s: string) {
    forall i :: 0 <= i < |s| ==> IsWhitespace(s[i])
  }

  /** Neither end of `s` is whitespace: `trim` leaves `s` as it is. */
  predicate IsTrimmed(s: string) {
    s == [] || (!IsWhitespace(s[0]) && !IsWhitespace(s[|s| - 1]))
  }

  /** The first position at or after `i` that is not whitespace, or `|s|`. */
  function SkipForward(s: string, i: nat): (k: nat)
    requires i <= |s|
    ensures i <= k <= |s|
    ensures forall m :: i <= m < k ==> IsWhitespace(s[m])
    ensures k < |s| ==> !IsWhitespace(s[k])
    decreases |s| - i
  {
    if i == |s| || !IsWhitespace(s[i]) then i else SkipForward(s, i + 1)
  }

  /** The end of the last non-whitespace character before `j` and not before `lo`, or `lo`. */
  function SkipBackward(s: string, lo: nat, j: nat): (k: nat)
    requires lo <= j <= |s|
    ensures lo <= k <= j
    ensures forall m :: k <= m < j ==> IsWhitespace(s[m])
    ensures k > lo ==> !IsWhitespace(s[k - 1])
    decreases j
  {
    if j == lo || !IsWhitespace(s[j - 1]) then j else SkipBackward(s, lo, j - 1)
  }

  /**
   `String.prototype.trim`: `s` with its leading and trailing whitespace cut
   away (`TrimIsSlice` says where the cuts fall).
   */
  function Trim(s: string): (r: string)
    ensures IsTrimmed(r)
    ensures |r| <= |s|
    ensures r == [] <==> AllWhitespace(s)
    ensures IsTrimmed(s) ==> r == s
  {
    var a := SkipForward(s, 0);
    var b := SkipBackward(s, a, |s|);
    s[a..b]
  }

  /** `Trim` keeps a slice of `s` and cuts only whitespace on either side. */
  lemma TrimIsSlice(s: string)
    ensures exists i, j ::
              && 0 <= i <= j <= |s| && Trim(s) == s[i..j]
              && (forall m :: 0 <= m < i ==> IsWhitespace(s[m]))
              && (forall m :: j <= m < |s| ==> IsWhitespace(s[m]))
  {
    var a := SkipForward(s, 0);
    var b := SkipBackward(s, a, |s|);
    assert Trim(s) == s[a..b];
  }

  /** The `length` of a string in JavaScript: characters outside the BMP count twice. */
  function JsLength(s: string): (n: nat)
    ensures |s| <= n <= 2 * |s|
  {
    if s == [] then 0
    else (if s[0] as int < 0x1_0000 then 1 else 2) + JsLength(s[1..])
  }

  /** A string of BMP characters has one code unit per character. */
  lemma {:induction false} JsLengthOfBmp(s: string)
    requires forall i :: 0 <= i < |s| ==> s[i] as int < 0x1_0000
    ensures JsLength(s) == |s|
  {
    if s != [] {
      JsLengthOfBmp(s[1..]);
    }
  }

  /** One trailing space is cut away again. */
  lemma TrimTrailingSpace(s: string)
    requires IsTrimmed(s) && s != []
    ensures Trim(s + [' ']) == s
  {
    var t := s + [' '];
    assert SkipForward(t, 0) == 0;
    assert SkipBackward(t, 0, |t|) == SkipBackward(t, 0, |s|) == |s|;
    assert t[0..|s|] == s;
  }
}

=== FILE: results.dfy ===
/** Small failure-compatible wrappers shared by the model. */
module Results {

  /** A value that may be absent, such as a row's operator control. */
  datatype Option<+T> = None | Some(value: T)

  /** The outcome of a handler: the new state, or the TypeError the script would throw. */
  datatype Result<+T> = Success(value: T) | Failure(error: string) {

    predicate IsFailure() {
      Failure?
    }

    function PropagateFailure<U>(): Result<U>
      requires Failure?
    {
      Failure(error)
    }

    function Extract(): T
      requires Success?
    {
      value
    }
  }
}

=== FILE: session.dfy ===
/**
 Session persistence and the panel's life cycle: saving the criteria under
 two fixed keys, restoring them, forgetting them, resetting the form when
 nothing is saved, and opening, closing and submitting the panel.
 */
module Session {
  import opened Results
  import opened FormState
  import opened Validation
  import opened TextCriteria
  import opened DateCriteria

  /**
   Stores the collected text criteria under the text key and the collected
   date criterion under the date key. Collection throws before anything is
   stored when an operator control is missing.
   */
  function SaveCriteria(f: Form, s: Storage): (r: Result<Storage>)
    ensures r.Success? <==> GetTextCriteria(f.rows).Success?
    ensures r.Success? ==>
      && TextKey in r.value && r.value[TextKey] == StoredText(GetTextCriteria(f.rows).value)
      && DateKey in r.value && r.value[DateKey] == StoredDate(GetDateCriteria(f.date))
    ensures r.Success? ==> r.value.Keys == s.Keys + {TextKey, DateKey}
    ensures r.Success? ==> forall k :: k in s && k != TextKey && k != DateKey ==> r.value[k] == s[k]
  {
    var text :- GetTextCriteria(f.rows);
    Success(s[TextKey := StoredText(text)][DateKey := StoredDate(GetDateCriteria(f.date))])
  }

  /** Deletes both keys and nothing else. */
  function RemoveCriteria(s: Storage): (r: Storage)
    ensures TextKey !in r && DateKey !in r
    ensures r.Keys == s.Keys - {TextKey, DateKey}
    ensures forall k :: k in r ==> r[k] == s[k]
  {
    s - {TextKey, DateKey}
  }

  /**
   Writes a stored text value back into the rows. A value that is not a list
   of records has no elements, so writing it throws at the first row.
   */
  function ApplyStoredText(f: Form, v: Stored): (r: Result<Form>)
    ensures v.StoredText? ==> r == SetTextCriteria(f, v.criteria)
    ensures v.StoredDate? ==> (r.Success? <==> f.rows == []) && (r.Success? ==> r.value == f)
    ensures r.Success? ==> var g := r.value; g == f.(rows := g.rows, addHidden := g.addHidden)
  {
    match v
    case StoredText(c) => SetTextCriteria(f, c)
    case StoredDate(_) => if f.rows == [] then Success(f) else Failure("criteria[i] is undefined")
  }

  /** Writes a stored date value back; a value without a `type` matches no radio and changes nothing. */
  function ApplyStoredDate(d: DateInputs, v: Stored): (d': DateInputs)
    ensures v.StoredDate? ==> GetDateCriteria(d') == v.date
    ensures v.StoredText? ==> d' == d
    ensures d'.start.error == d.start.error && d'.end.error == d.end.error
  {
    match v
    case StoredDate(c) => SetDateCriteria(d, c)
    case StoredText(_) => d
  }

  /**
   Restores whatever is stored: the text value into the rows, the date value
   into the date inputs, and, when either was there, re-decides the submit
   control. With neither key present the form is left alone.
   */
  function SetCriteria(f: Form, s: Storage): (r: Result<Form>)
    ensures TextKey !in s && DateKey !in s ==> r == Success(f)
    ensures TextKey !in s ==> r.Success? && r.value.rows == f.rows
    ensures TextKey in s && s[TextKey].StoredText? ==>
      && (r.Success? <==> SetTextCriteria(f, s[TextKey].criteria).Success?)
      && (r.Success? ==> r.value.rows == SetTextCriteria(f, s[TextKey].criteria).value.rows)
    ensures TextKey in s && s[TextKey].StoredDate? ==> (r.Success? <==> f.rows == [])
    ensures DateKey !in s && r.Success? ==> r.value.date == f.date
    ensures DateKey in s && s[DateKey].StoredDate? && r.Success? ==>
      GetDateCriteria(r.value.date) == s[DateKey].date
    ensures DateKey in s && s[DateKey].StoredText? && r.Success? ==> r.value.date == f.date
    ensures (TextKey in s || DateKey in s) && r.Success? ==>
      (r.value.submitEnabled <==> ReadyToSubmit(r.value.rows, r.value.date))
    ensures r.Success? ==>
      && r.value.panelOpen == f.panelOpen && r.value.simpleSearchEnabled == f.simpleSearchEnabled
      && r.value.dateBanner == f.dateBanner
      && r.value.date.start.error == f.date.start.error && r.value.date.end.error == f.date.end.error
    ensures r.Success? ==> var g := r.value;
      g == f.(rows := g.rows, addHidden := g.addHidden, date := g.date, submitEnabled := g.submitEnabled)
  {
    match RestoreHalves(f, s)
    case Failure(e) => Failure(e)
    case Success(f2) => Success(DecideAfterRestore(f2, s))
  }

  /** Re-decides the submit control when anything was stored, and only then. */
  function DecideAfterRestore(f: Form, s: Storage): (g: Form)
    ensures g == f.(submitEnabled := g.submitEnabled)
    ensures TextKey in s || DateKey in s ==> (g.submitEnabled <==> ReadyToSubmit(g.rows, g.date))
    ensures TextKey !in s && DateKey !in s ==> g == f
  {
    if TextKey in s || DateKey in s then SetStatusSearchButton(f) else f
  }

  /** The writes of a restore, before the submit control is re-decided. */
  function RestoreHalves(f: Form, s: Storage): (r: Result<Form>)
    ensures r.Success? ==> var g := r.value;
      && g == f.(rows := g.rows, addHidden := g.addHidden, date := g.date)
      && g.date.start.error == f.date.start.error && g.date.end.error == f.date.end.error
    ensures TextKey !in s ==> r == Success(RestoreDate(f, s))
    ensures TextKey in s ==> match ApplyStoredText(f, s[TextKey])
      case Success(f1) => r == Success(RestoreDate(f1, s))
      case Failure(_) => r.Failure?
  {
    if TextKey !in s then Success(RestoreDate(f, s))
    else match ApplyStoredText(f, s[TextKey])
      case Success(f1) => Success(RestoreDate(f1, s))
      case Failure(e) => Failure(e)
  }

  /** The date half of a restore: only the date inputs' values and mode can change. */
  function RestoreDate(f: Form, s: Storage): (g: Form)
    ensures g == f.(date := g.date)
    ensures g.date.start.error == f.date.start.error && g.date.end.error == f.date.end.error
    ensures DateKey in s && s[DateKey].StoredDate? ==> GetDateCriteria(g.date) == s[DateKey].date
    ensures (DateKey !in s || s[DateKey].StoredText?) ==> g == f
  {
    if DateKey in s then f.(date := ApplyStoredDate(f.date, s[DateKey])) else f
  }

  /**
   Resets each half of the form whose key is absent from storage: the text
   rows when the text key is missing, the date inputs when the date key is.
   The two halves are decided independently.
   */
  function ClearCriteria(f: Form, s: Storage): (r: Result<Form>)
    ensures TextKey in s ==> r.Success? && r.value.rows == f.rows && r.value.addHidden == f.addHidden
    ensures TextKey in s ==> r == Success(f.(date := r.value.date))
    ensures DateKey in s && r.Success? ==> r.value.date == f.date
    ensures DateKey !in s && r.Success? ==> r.value.date == ClearDateCriteria(f.date)
    ensures TextKey !in s && WellLaid(f.rows) && |f.rows| >= 2 ==>
      && r.Success?
      && |r.value.rows| == 3
      && GetTextCriteria(r.value.rows) == Success(DefaultCriteria)
    ensures r.Success? ==> r.value.panelOpen == f.panelOpen
    ensures r.Success? ==> r.value.simpleSearchEnabled == f.simpleSearchEnabled
    ensures r.Success? ==> r.value.dateBanner == f.dateBanner
    ensures r.Success? && |f.rows| <= 3 ==> r.value.submitEnabled == f.submitEnabled
    ensures TextKey !in s && r.Success? && |f.rows| > 3 ==>
      (r.value.submitEnabled <==> ReadyToSubmit(f.rows[..3], f.date))
  {
    var f1 :- if TextKey !in s then ClearTextCriteria(f) else Success(f);
    Success(if DateKey !in s then f1.(date := ClearDateCriteria(f1.date)) else f1)
  }

  /** Shows the panel (and marks the search link active). */
  function OpenSearchPanel(f: Form): (g: Form)
    ensures g.panelOpen
    ensures g == f.(panelOpen := true)
  {
    f.(panelOpen := true)
  }

  /**
   Hides the panel, resets the halves of the form that have nothing saved,
   and re-enables the simple search.
   */
  function CloseSearchPanel(f: Form, s: Storage): (r: Result<Form>)
    ensures r.Success? ==> !r.value.panelOpen && r.value.simpleSearchEnabled
    ensures TextKey in s && DateKey in s ==>
      r == Success(f.(panelOpen := false, simpleSearchEnabled := true))
    ensures r.Success? && |f.rows| <= 3 ==> r.value.submitEnabled == f.submitEnabled
    ensures TextKey !in s && WellLaid(f.rows) && |f.rows| >= 2 ==>
      r.Success? && GetTextCriteria(r.value.rows) == Success(DefaultCriteria)
    ensures DateKey !in s && r.Success? ==> r.value.date == ClearDateCriteria(f.date)
    ensures TextKey in s ==> r.Success? && r.value.rows == f.rows
    ensures DateKey in s && r.Success? ==> r.value.date == f.date
    ensures r.Success? ==> var g := r.value;
      g == f.(rows := g.rows, addHidden := g.addHidden, textBanner := g.textBanner,
        date := g.date, submitEnabled := g.submitEnabled, panelOpen := false, simpleSearchEnabled := true)
    ensures TextKey in s ==> r.value.submitEnabled == f.submitEnabled && r.value.textBanner == f.textBanner
    ensures TextKey !in s && r.Success? && |f.rows| > 3 ==>
      (r.value.submitEnabled <==> ReadyToSubmit(f.rows[..3], f.date))
  {
    var g :- ClearCriteria(f.(panelOpen := false), s);
    Success(g.(simpleSearchEnabled := true))
  }

  /**
   Opens a closed panel, disabling the simple search; closes an open one,
   re-enabling it.
   */
  function ToggleSearchPanel(f: Form, s: Storage): (r: Result<Form>)
    ensures !f.panelOpen ==> r == Success(f.(panelOpen := true, simpleSearchEnabled := false))
    ensures r.Success? ==> r.value.panelOpen == !f.panelOpen
    ensures r.Success? ==> r.value.simpleSearchEnabled == !r.value.panelOpen
    ensures f.panelOpen && TextKey !in s && WellLaid(f.rows) && |f.rows| >= 2 ==>
      r.Success? && GetTextCriteria(r.value.rows) == Success(DefaultCriteria)
    ensures f.panelOpen && DateKey !in s && r.Success? ==> r.value.date == ClearDateCriteria(f.date)
    ensures f.panelOpen && r.Success? && |f.rows| <= 3 ==> r.value.submitEnabled == f.submitEnabled
    ensures f.panelOpen && TextKey in s ==> r.Success? && r.value.rows == f.rows
    ensures f.panelOpen && DateKey in s && r.Success? ==> r.value.date == f.date
    ensures f.panelOpen && r.Success? ==> var g := r.value;
      g == f.(rows := g.rows, addHidden := g.addHidden, textBanner := g.textBanner,
        date := g.date, submitEnabled := g.submitEnabled, panelOpen := false, simpleSearchEnabled := true)
    ensures f.panelOpen && TextKey in s ==>
      r.value.submitEnabled == f.submitEnabled && r.value.textBanner == f.textBanner
    ensures f.panelOpen && TextKey !in s && r.Success? && |f.rows| > 3 ==>
      (r.value.submitEnabled <==> ReadyToSubmit(f.rows[..3], f.date))
  {
    if f.panelOpen then CloseSearchPanel(f.(simpleSearchEnabled := true), s)
    else Success(OpenSearchPanel(f.(simpleSearchEnabled := false)))
  }

  /**
   The search button: saves the criteria, then closes the panel. Since both
   keys are then present, closing resets nothing: the form keeps what was
   entered.
   */
  function SubmitAdvancedSearch(f: Form, s: Storage): (r: Result<(Form, Storage)>)
    ensures r.Success? <==> GetTextCriteria(f.rows).Success?
    ensures r.Success? ==> r.value.0 == f.(panelOpen := false, simpleSearchEnabled := true)
    ensures r.Success? ==> r.value.1 == SaveCriteria(f, s).value
    ensures r.Success? ==>
      && TextKey in r.value.1 && DateKey in r.value.1
      && r.value.1[TextKey] == StoredText(GetTextCriteria(f.rows).value)
      && r.value.1[DateKey] == StoredDate(GetDateCriteria(f.date))
  {
    var s' :- SaveCriteria(f, s);
    // Both keys are now stored, so closing resets nothing and cannot throw.
    var g := CloseSearchPanel(f, s').value;
    Success((g, s'))
  }

  /**
   What is saved is what is restored: criteria saved from one form and
   restored into a form in the markup's layout with no more rows read back
   exactly as they were collected, and the submit control is decided for
   the restored values.
   */
  lemma SaveThenRestore(f: Form, g: Form, s: Storage)
    requires SaveCriteria(f, s).Success?
    requires WellLaid(g.rows) && 2 <= |g.rows| <= |f.rows|
    ensures SetCriteria(g, SaveCriteria(f, s).value).Success?
    ensures var h := SetCriteria(g, SaveCriteria(f, s).value).value;
      && GetTextCriteria(h.rows) == GetTextCriteria(f.rows)
      && GetDateCriteria(h.date) == GetDateCriteria(f.date)
      && (h.submitEnabled <==> ReadyToSubmit(h.rows, h.date))
  {
    var s' := SaveCriteria(f, s).value;
    var c := GetTextCriteria(f.rows).value;
    SetThenGetFromMarkup(g, c);
    var g1 := SetTextCriteria(g, c).value;
    var g2 := g1.(date := ApplyStoredDate(g1.date, s'[DateKey]));
    assert SetCriteria(g, s') == Success(SetStatusSearchButton(g2));
  }
}

=== FILE: text_criteria.dfy ===
/**
 Collecting the text rows into criteria records and writing records back
 into the rows. Record i takes its operator from operator control i-1 on
 collection, and writing puts record i+1's operator into control i, so the
 two agree on the same convention.
 */
module TextCriteria {
  import opened Results
  import opened JsString
  import opened FormState
  import opened Validation
  import opened TextRows

  /** The shape `getTextCriteria` produces: every string trimmed, the first operator empty. */
  predicate Collected(c: seq<Criterion>) {
    && (|c| > 0 ==> c[0].operator == "")
    && forall i :: 0 <= i < |c| ==>
         IsTrimmed(c[i].text) && IsTrimmed(c[i].field) && IsTrimmed(c[i].operator)
  }

  /** The three rows a reset writes: empty text on all fields, joined by `and`. */
  const DefaultCriteria := [
    Criterion("", DefaultField, ""),
    Criterion("", DefaultField, DefaultOperator),
    Criterion("", DefaultField, DefaultOperator)]

  lemma DefaultsCollected()
    ensures Collected(DefaultCriteria)
  {
    assert IsTrimmed(DefaultField) by { assert DefaultField[0] == 'a' && DefaultField[9] == 's'; }
    assert IsTrimmed(DefaultOperator) by { assert DefaultOperator[0] == 'a' && DefaultOperator[2] == 'd'; }
  }

  /**
   One record per row with text and field trimmed; the first record's operator
   is empty and record i takes operator control i-1, trimmed. With too few
   operator controls the script reads a missing one and throws.
   */
  function GetTextCriteria(rows: seq<Row>): (r: Result<seq<Criterion>>)
    ensures r.Success? <==> |rows| <= |OpControls(rows)| + 1
    ensures r.Success? ==> |r.value| == |rows| && Collected(r.value)
    ensures r.Success? ==> forall i :: 0 <= i < |rows| ==>
      && r.value[i].text == Trim(rows[i].text)
      && r.value[i].field == Trim(rows[i].field)
      && (i > 0 ==> r.value[i].operator == Trim(OpControls(rows)[i - 1]))
    ensures WellLaid(rows) ==> r.Success? && forall i :: 1 <= i < |rows| ==>
      r.value[i].operator == Trim(rows[i].op.value)
  {
    var ops := OpControls(rows);
    OpControlsWellLaid(rows);
    if |rows| > |ops| + 1 then Failure("operator[i - 1] is undefined")
    else Success(CollectRows(rows, ops))
  }

  /** The records read from `rows`, operator control i-1 going to record i. */
  function CollectRows(rows: seq<Row>, ops: seq<string>): (c: seq<Criterion>)
    requires |rows| <= |ops| + 1
    ensures |c| == |rows|
    ensures forall i :: 0 <= i < |rows| ==> c[i].text == Trim(rows[i].text) && c[i].field == Trim(rows[i].field)
    ensures forall i :: 0 <= i < |rows| ==> c[i].operator == if i == 0 then "" else Trim(ops[i - 1])
    ensures Collected(c)
  {
    seq(|rows|, i requires 0 <= i < |rows| =>
      Criterion(Trim(rows[i].text), Trim(rows[i].field), if i == 0 then "" else Trim(ops[i - 1])))
  }

  /** Writes record i's text and field into row i. */
  function WriteValues(rows: seq<Row>, c: seq<Criterion>): (r: seq<Row>)
    requires |c| >= |rows|
    ensures |r| == |rows|
    ensures forall i :: 0 <= i < |rows| ==>
      r[i] == rows[i].(text := c[i].text, field := c[i].field)
  {
    seq(|rows|, i requires 0 <= i < |rows| => rows[i].(text := c[i].text, field := c[i].field))
  }

  /**
   Writes `ops` into the operator controls of `rows` in document order,
   leaving the controls past the end of `ops` alone.
   */
  function WriteOps(rows: seq<Row>, ops: seq<string>): (r: seq<Row>)
    ensures |r| == |rows|
    ensures forall i :: 0 <= i < |rows| ==>
      r[i].op.Some? == rows[i].op.Some? && r[i] == rows[i].(op := r[i].op)
    decreases |rows|
  {
    if rows == [] then []
    else if rows[0].op.None? then [rows[0]] + WriteOps(rows[1..], ops)
    else if ops == [] then rows
    else [rows[0].(op := Some(ops[0]))] + WriteOps(rows[1..], ops[1..])
  }

  /** After the write, the first `|ops|` operator controls read back `ops`. */
  lemma {:induction false} WriteOpsControls(rows: seq<Row>, ops: seq<string>)
    requires |ops| <= |OpControls(rows)|
    ensures OpControls(WriteOps(rows, ops)) == ops + OpControls(rows)[|ops|..]
    decreases |rows|
  {
    if rows == [] {
    } else if rows[0].op.None? {
      assert OpControls(rows) == OpControls(rows[1..]);
      WriteOpsControls(rows[1..], ops);
      SkipRowControls(rows, ops);
    } else if ops == [] {
    } else {
      assert OpControls(rows) == [rows[0].op.value] + OpControls(rows[1..]);
      WriteOpsControls(rows[1..], ops[1..]);
      WriteRowControls(rows, ops);
    }
  }

  /** The step past a row without an operator select. */
  lemma SkipRowControls(rows: seq<Row>, ops: seq<string>)
    requires rows != [] && rows[0].op.None? && |ops| <= |OpControls(rows[1..])|
    requires OpControls(WriteOps(rows[1..], ops)) == ops + OpControls(rows[1..])[|ops|..]
    ensures |ops| <= |OpControls(rows)|
    ensures OpControls(WriteOps(rows, ops)) == ops + OpControls(rows)[|ops|..]
  {
    var w := WriteOps(rows[1..], ops);
    var r := WriteOps(rows, ops);
    assert OpControls(r) == OpControls(w) by {
      assert r == [rows[0]] + w;
      assert r[0].op.None? && r[1..] == w;
    }
    assert OpControls(rows) == OpControls(rows[1..]);
  }

  /** The step that writes `ops[0]` into a row's operator select. */
  lemma WriteRowControls(rows: seq<Row>, ops: seq<string>)
    requires rows != [] && rows[0].op.Some? && ops != [] && |ops| - 1 <= |OpControls(rows[1..])|
    requires OpControls(WriteOps(rows[1..], ops[1..])) == ops[1..] + OpControls(rows[1..])[|ops| - 1..]
    ensures |ops| <= |OpControls(rows)|
    ensures OpControls(WriteOps(rows, ops)) == ops + OpControls(rows)[|ops|..]
  {
    var w := WriteOps(rows[1..], ops[1..]);
    var r := WriteOps(rows, ops);
    var rest := OpControls(rows[1..]);
    assert OpControls(r) == [ops[0]] + OpControls(w) by {
      assert r == [rows[0].(op := Some(ops[0]))] + w;
      assert r[0].op == Some(ops[0]) && r[1..] == w;
    }
    assert OpControls(rows) == [rows[0].op.value] + rest;
    ReplaceHead(rows[0].op.value, ops, rest);
  }

  /** Replacing the head of `[y] + rest` and the |ops|-1 after it by `ops`. */
  lemma ReplaceHead<T>(y: T, ops: seq<T>, rest: seq<T>)
    requires 1 <= |ops| <= |rest| + 1
    ensures [ops[0]] + (ops[1..] + rest[|ops| - 1..]) == ops + ([y] + rest)[|ops|..]
  {
    assert ([y] + rest)[|ops|..] == rest[|ops| - 1..];
    assert [ops[0]] + ops[1..] == ops;
  }

  /** The operators `setTextCriteria` writes into the first n-1 controls: those of records 1..n-1. */
  function OperatorsAfterFirst(c: seq<Criterion>, n: nat): (ops: seq<string>)
    requires n <= |c|
    ensures |ops| == if n > 0 then n - 1 else 0
    ensures forall i :: 0 <= i < |ops| ==> ops[i] == c[i + 1].operator
  {
    if n == 0 then [] else seq(n - 1, i requires 0 <= i < n - 1 => c[i + 1].operator)
  }

  /** Same flags, identifiers and operator layout, row by row. */
  predicate SameSkeleton(rows: seq<Row>, rows': seq<Row>) {
    && |rows| == |rows'|
    && forall i :: 0 <= i < |rows| ==>
         && rows'[i].id == rows[i].id
         && rows'[i].error == rows[i].error
         && rows'[i].op.Some? == rows[i].op.Some?
  }

  lemma SkeletonPrefix(rows: seq<Row>, rows': seq<Row>, n: nat)
    requires SameSkeleton(rows, rows') && n <= |rows|
    ensures SameSkeleton(rows[..n], rows'[..n])
  {
  }

  lemma SameSkeletonFacts(rows: seq<Row>, rows': seq<Row>)
    requires SameSkeleton(rows, rows')
    ensures AnyRowError(rows) <==> AnyRowError(rows')
    ensures WellLaid(rows) <==> WellLaid(rows')
  {
    if AnyRowError(rows) {
      var i :| 0 <= i < |rows| && rows[i].error;
      assert rows'[i].error;
    }
    if AnyRowError(rows') {
      var i :| 0 <= i < |rows'| && rows'[i].error;
      assert rows[i].error;
    }
  }

  /** The write loop of `setTextCriteria` over rows that are all there. */
  function WriteCriteria(rows: seq<Row>, c: seq<Criterion>): (r: seq<Row>)
    requires |c| >= |rows|
    ensures SameSkeleton(rows, r)
    ensures forall i :: 0 <= i < |r| ==> r[i].text == c[i].text && r[i].field == c[i].field
  {
    WriteOps(WriteValues(rows, c), OperatorsAfterFirst(c, |rows|))
  }

  /** After the write loop, operator control i-1 holds record i's operator. */
  lemma WriteCriteriaControls(rows: seq<Row>, c: seq<Criterion>)
    requires |c| >= |rows| > 0 && |OpControls(rows)| >= |rows| - 1
    ensures |OpControls(WriteCriteria(rows, c))| >= |rows| - 1
    ensures forall i :: 1 <= i < |rows| ==> OpControls(WriteCriteria(rows, c))[i - 1] == c[i].operator
  {
    var w := WriteValues(rows, c);
    OpControlsOfSameOps(rows, w);
    WriteOpsControls(w, OperatorsAfterFirst(c, |rows|));
  }

  /**
   The write loop of `setTextCriteria` on the rows as they stand: record i
   into row i, record i+1's operator into operator control i. It throws when
   a row has no record or an operator control is missing.
   */
  function ApplyCriteria(f: Form, c: seq<Criterion>): (r: Result<Form>)
    ensures r.Success? <==> |c| >= |f.rows| && |f.rows| <= |OpControls(f.rows)| + 1
    ensures r.Success? ==> SameSkeleton(f.rows, r.value.rows)
    ensures r.Success? ==> forall i :: 0 <= i < |f.rows| ==>
      r.value.rows[i].text == c[i].text && r.value.rows[i].field == c[i].field
    ensures r.Success? ==> |f.rows| <= |OpControls(r.value.rows)| + 1
    ensures r.Success? ==> forall i :: 1 <= i < |f.rows| ==>
      OpControls(r.value.rows)[i - 1] == c[i].operator
    ensures r.Success? ==> r.value == f.(rows := r.value.rows)
  {
    var n := |f.rows|;
    if |c| < n then Failure("criteria[i] is undefined")
    else if n > 0 && |OpControls(f.rows)| < n - 1 then Failure("operator[i] is undefined")
    else if n == 0 then Success(f)
    else
      WriteCriteriaControls(f.rows, c);
      Success(f.(rows := WriteCriteria(f.rows, c)))
  }

  /**
   Writes records back into the rows, first adding rows when there are more
   records than rows; it never removes one. With fewer records than rows, or
   too few operator controls, the script throws.
   */
  function SetTextCriteria(f: Form, c: seq<Criterion>): (r: Result<Form>)
    ensures r.Success? ==>
      |r.value.rows| == (if |f.rows| >= 2 && |c| > |f.rows| then |c| else |f.rows|)
    ensures r.Success? ==> |r.value.rows| <= |c|
    ensures r.Success? ==> forall i :: 0 <= i < |r.value.rows| ==>
      r.value.rows[i].text == c[i].text && r.value.rows[i].field == c[i].field
    ensures r.Success? ==> |r.value.rows| <= |OpControls(r.value.rows)| + 1
    ensures r.Success? ==> forall i :: 1 <= i < |r.value.rows| ==>
      OpControls(r.value.rows)[i - 1] == c[i].operator
    ensures WellLaid(f.rows) ==> (r.Success? <==> |c| >= |f.rows|)
    ensures r.Success? ==> r.value == f.(rows := r.value.rows, addHidden := r.value.addHidden)
  {
    // The script guards the growth with a count comparison; adding a
    // non-positive number of rows adds none, so the guard is subsumed.
    var f1 := AddCriteriaItems(f, |c| - |f.rows|);
    OpControlsWellLaid(f1.rows);
    ApplyCriteria(f1, c)
  }

  /**
   Writing records keeps the add control in step with the row count, the
   text banner in step with the row flags, and the markup's operator layout.
   */
  lemma SetKeepsInvariants(f: Form, c: seq<Criterion>)
    requires SetTextCriteria(f, c).Success?
    ensures AddControlConsistent(f) ==> AddControlConsistent(SetTextCriteria(f, c).value)
    ensures TextBannerConsistent(f) ==> TextBannerConsistent(SetTextCriteria(f, c).value)
    ensures WellLaid(f.rows) ==> WellLaid(SetTextCriteria(f, c).value.rows)
  {
    var f1 := AddCriteriaItems(f, |c| - |f.rows|);
    ApplyKeepsInvariants(f1, c);
    assert ApplyCriteria(f1, c) == SetTextCriteria(f, c);
  }

  /** The write step alone keeps the three invariants. */
  lemma ApplyKeepsInvariants(f: Form, c: seq<Criterion>)
    requires ApplyCriteria(f, c).Success?
    ensures AddControlConsistent(f) ==> AddControlConsistent(ApplyCriteria(f, c).value)
    ensures TextBannerConsistent(f) ==> TextBannerConsistent(ApplyCriteria(f, c).value)
    ensures WellLaid(f.rows) ==> WellLaid(ApplyCriteria(f, c).value.rows)
  {
    var r := ApplyCriteria(f, c).value;
    assert r.addHidden == f.addHidden && |r.rows| == |f.rows|;
    SameSkeletonFacts(f.rows, r.rows);
  }

  /** Writing records keeps every existing row's id, flag and operator presence. */
  lemma SetKeepsSkeleton(f: Form, c: seq<Criterion>)
    requires SetTextCriteria(f, c).Success?
    ensures SameSkeleton(f.rows, SetTextCriteria(f, c).value.rows[..|f.rows|])
  {
    var f1 := AddCriteriaItems(f, |c| - |f.rows|);
    var r := ApplyCriteria(f1, c);
    assert r == SetTextCriteria(f, c);
    SkeletonPrefix(f1.rows, r.value.rows, |f.rows|);
  }

  /**
   Collection undoes writing: records in the collected shape, written into as
   many rows as there are records, read back unchanged.
   */
  lemma SetThenGet(f: Form, c: seq<Criterion>)
    requires Collected(c)
    requires SetTextCriteria(f, c).Success? && |SetTextCriteria(f, c).value.rows| == |c|
    ensures GetTextCriteria(SetTextCriteria(f, c).value.rows) == Success(c)
  {
    var rows := SetTextCriteria(f, c).value.rows;
    var g := GetTextCriteria(SetTextCriteria(f, c).value.rows);
    assert g.Success?;
    forall i | 0 <= i < |c|
      ensures g.value[i] == c[i]
    {
      assert rows[i].text == c[i].text && rows[i].field == c[i].field;
      assert g.value[i].text == Trim(c[i].text) == c[i].text;
      assert g.value[i].field == Trim(c[i].field) == c[i].field;
      if i > 0 {
        assert g.value[i].operator == Trim(OpControls(rows)[i - 1]) == Trim(c[i].operator);
      }
    }
    assert |g.value| == |c|;
    assert g.value == c;
  }

  /**
   The same round trip from the markup's layout: with at least two rows and
   at least as many records as rows, writing succeeds, leaves exactly one
   row per record, and collecting reads the records back.
   */
  lemma SetThenGetFromMarkup(f: Form, c: seq<Criterion>)
    requires Collected(c)
    requires WellLaid(f.rows) && 2 <= |f.rows| <= |c|
    ensures SetTextCriteria(f, c).Success?
    ensures |SetTextCriteria(f, c).value.rows| == |c|
    ensures GetTextCriteria(SetTextCriteria(f, c).value.rows) == Success(c)
  {
    SetThenGet(f, c);
  }

  /**
   Resets the text criteria: removes every row from the fourth on, then
   writes the three default records. The submit control is decided by the
   removals, if any, for the first three rows' old texts; writing the
   defaults does not decide it again.
   */
  function ClearTextCriteria(f: Form): (r: Result<Form>)
    ensures WellLaid(f.rows) && |f.rows| >= 2 ==>
      && r.Success?
      && |r.value.rows| == 3
      && GetTextCriteria(r.value.rows) == Success(DefaultCriteria)
    ensures r.Success? ==> r.value.date == f.date && r.value.dateBanner == f.dateBanner
    ensures r.Success? && |f.rows| <= 3 ==> r.value.submitEnabled == f.submitEnabled
    ensures r.Success? && |f.rows| > 3 ==>
      (r.value.submitEnabled <==> ReadyToSubmit(f.rows[..3], f.date))
    ensures r.Success? ==> r.value.panelOpen == f.panelOpen
    ensures r.Success? ==> r.value.simpleSearchEnabled == f.simpleSearchEnabled
  {
    var f1 := RemoveRowsAfterThird(f);
    DefaultsReadBack(f1);
    SetTextCriteria(f1, DefaultCriteria)
  }

  /** From the markup's layout, the default records are written and read back. */
  lemma DefaultsReadBack(f: Form)
    ensures WellLaid(f.rows) && 2 <= |f.rows| <= 3 ==>
      && SetTextCriteria(f, DefaultCriteria).Success?
      && |SetTextCriteria(f, DefaultCriteria).value.rows| == 3
      && GetTextCriteria(SetTextCriteria(f, DefaultCriteria).value.rows) == Success(DefaultCriteria)
  {
    if WellLaid(f.rows) && 2 <= |f.rows| <= 3 {
      DefaultsCollected();
      SetThenGetFromMarkup(f, DefaultCriteria);
    }
  }

  /**
   The reset keeps the add control in step with the row count (and so
   reveals it), the text banner in step with the flags, and the layout.
   */
  lemma ClearKeepsInvariants(f: Form)
    requires ClearTextCriteria(f).Success?
    ensures AddControlConsistent(f) ==>
      AddControlConsistent(ClearTextCriteria(f).value) && !ClearTextCriteria(f).value.addHidden
    ensures TextBannerConsistent(f) ==> TextBannerConsistent(ClearTextCriteria(f).value)
    ensures WellLaid(f.rows) ==> WellLaid(ClearTextCriteria(f).value.rows)
  {
    var f1 := RemoveRowsAfterThird(f);
    SetKeepsInvariants(f1, DefaultCriteria);
  }
}

=== FILE: text_rows.dfy ===
/**
 The text-criteria row list: adding a row cloned from the second one, and
 removing a row. Only the add control's `hidden` class bounds the list; the
 code enforces no minimum row count.
 */
module TextRows {
  import opened FormState
  import opened Validation

  /** The add control is hidden exactly while the list holds `MaxRows` rows or more. */
  predicate AddControlConsistent(f: Form) {
    f.addHidden <==> |f.rows| >= MaxRows
  }

  /**
   Appends a clone of the second row (the first one carrying an operator
   select) with its text emptied, its flag cleared and its inputs numbered
   one past the old row count; hides the add control when the count reaches
   `MaxRows`. With fewer than two rows there is nothing to clone and the list
   stays as it is.
   */
  function AddCriteriaItem(f: Form): (g: Form)
    ensures |f.rows| < 2 ==> g == f
    ensures |f.rows| >= 2 ==>
      && |g.rows| == |f.rows| + 1
      && g.rows[..|f.rows|] == f.rows
      && g.rows[|f.rows|] == Row("", f.rows[1].field, f.rows[1].op, false, |f.rows| + 1)
    ensures |g.rows| == MaxRows ==> g.addHidden
    ensures |g.rows| != MaxRows ==> g.addHidden == f.addHidden
    ensures g == f.(rows := g.rows, addHidden := g.addHidden)
    ensures AddControlConsistent(f) ==> AddControlConsistent(g)
    ensures TextBannerConsistent(f) ==> TextBannerConsistent(g)
    ensures WellLaid(f.rows) ==> WellLaid(g.rows)
  {
    if |f.rows| < 2 then f
    else
      var newId := |f.rows| + 1;
      var item := f.rows[1].(text := "", error := false, id := newId);
      var rows := f.rows + [item];
      assert forall i :: 0 <= i < |f.rows| ==> rows[i] == f.rows[i];
      f.(rows := rows, addHidden := if |rows| == MaxRows then true else f.addHidden)
  }

  /** `addCriteriaItem` called `k` times (no times when `k` is not positive). */
  function AddCriteriaItems(f: Form, k: int): (g: Form)
    ensures |f.rows| < 2 ==> g == f
    ensures |f.rows| >= 2 ==> |g.rows| == |f.rows| + (if k > 0 then k else 0)
    ensures |g.rows| >= |f.rows| && g.rows[..|f.rows|] == f.rows
    ensures forall i :: |f.rows| <= i < |g.rows| ==>
      g.rows[i] == Row("", f.rows[1].field, f.rows[1].op, false, i + 1)
    ensures g == f.(rows := g.rows, addHidden := g.addHidden)
    ensures AddControlConsistent(f) ==> AddControlConsistent(g)
    ensures TextBannerConsistent(f) ==> TextBannerConsistent(g)
    ensures WellLaid(f.rows) ==> WellLaid(g.rows)
    decreases k
  {
    if k <= 0 then f
    else
      var f1 := AddCriteriaItem(f);
      var g := AddCriteriaItems(f1, k - 1);
      assert |f.rows| >= 2 ==> f1.rows[1] == f.rows[1];
      assert |f.rows| >= 2 ==> g.rows[..|f.rows|] == g.rows[..|f1.rows|][..|f.rows|];
      g
  }

  /**
   Removes row `k`; reveals the add control when fewer than `MaxRows` rows
   remain, deactivates the text banner when no remaining row is flagged, and
   re-decides the submit control.
   */
  function RemoveCriteriaItem(f: Form, k: nat): (g: Form)
    requires k < |f.rows|
    ensures g.rows == f.rows[..k] + f.rows[k + 1..]
    ensures |g.rows| < MaxRows ==> !g.addHidden
    ensures |g.rows| >= MaxRows ==> g.addHidden == f.addHidden
    ensures !AnyRowError(g.rows) ==> !g.textBanner
    ensures AnyRowError(g.rows) ==> g.textBanner == f.textBanner
    ensures g.submitEnabled <==> ReadyToSubmit(g.rows, g.date)
    ensures g == f.(rows := g.rows, addHidden := g.addHidden, textBanner := g.textBanner,
                    submitEnabled := g.submitEnabled)
    ensures AddControlConsistent(f) ==> AddControlConsistent(g)
    ensures TextBannerConsistent(f) ==> TextBannerConsistent(g)
  {
    var rows := f.rows[..k] + f.rows[k + 1..];
    var f1 := f.(rows := rows, addHidden := if |rows| < MaxRows then false else f.addHidden);
    var f2 := f1.(textBanner := if AnyRowError(rows) then f1.textBanner else false);
    RemovedRowErrors(f.rows, k);
    SetStatusSearchButton(f2)
  }

  /** Removing any row but the first keeps the markup's operator layout. */
  lemma RemoveKeepsLayout(rows: seq<Row>, k: nat)
    requires k < |rows|
    ensures WellLaid(rows) && (k > 0 || |rows| == 1) ==> WellLaid(rows[..k] + rows[k + 1..])
  {
    var r := rows[..k] + rows[k + 1..];
    forall i | 0 <= i < |r|
      ensures r[i] == (if i < k then rows[i] else rows[i + 1])
    {
    }
  }

  lemma RemovedRowErrors(rows: seq<Row>, k: nat)
    requires k < |rows|
    ensures AnyRowError(rows[..k] + rows[k + 1..]) ==> AnyRowError(rows)
  {
    var r := rows[..k] + rows[k + 1..];
    if AnyRowError(r) {
      var i :| 0 <= i < |r| && r[i].error;
      if i < k { assert r[i] == rows[i]; } else { assert r[i] == rows[i + 1]; }
    }
  }

  /** Removing row `k` keeps the order of the other rows: row i moves to i-1 past `k`. */
  lemma RemoveKeepsOrder(f: Form, k: nat)
    requires k < |f.rows|
    ensures var g := RemoveCriteriaItem(f, k);
      && |g.rows| == |f.rows| - 1
      && (forall i :: 0 <= i < k ==> g.rows[i] == f.rows[i])
      && (forall i :: k < i < |f.rows| ==> g.rows[i - 1] == f.rows[i])
  {
  }

  /**
   A new row is numbered one past the row count, not past the largest number in
   use: with rows numbered 1..n, removing any row but the last and adding
   one gives the new row the number the last row already has.
   */
  lemma RemoveThenAddRepeatsId(f: Form, k: nat)
    requires 3 <= |f.rows| && k < |f.rows| - 1
    requires forall i :: 0 <= i < |f.rows| ==> f.rows[i].id == i + 1
    ensures var g := AddCriteriaItem(RemoveCriteriaItem(f, k));
      && |g.rows| == |f.rows|
      && g.rows[|f.rows| - 2].id == g.rows[|f.rows| - 1].id == |f.rows|
  {
    RemoveKeepsOrder(f, k);
  }

  /**
   The removals `clearTextCriteria` makes: every row from the fourth on,
   in document order. Each removal re-decides the submit control, so the
   last one decides it for the first three rows as they stand.
   */
  function RemoveRowsAfterThird(f: Form): (g: Form)
    ensures |f.rows| <= 3 ==> g == f
    ensures |f.rows| > 3 ==> g.rows == f.rows[..3] && !g.addHidden
    ensures |f.rows| > 3 ==> (g.submitEnabled <==> ReadyToSubmit(f.rows[..3], f.date))
    ensures g.date == f.date && g.dateBanner == f.dateBanner
    ensures g.panelOpen == f.panelOpen && g.simpleSearchEnabled == f.simpleSearchEnabled
    ensures AddControlConsistent(f) ==> AddControlConsistent(g)
    ensures TextBannerConsistent(f) ==> TextBannerConsistent(g)
    ensures WellLaid(f.rows) ==> WellLaid(g.rows)
    decreases |f.rows|
  {
    if |f.rows| <= 3 then f
    else
      var f1 := RemoveCriteriaItem(f, 3);
      assert f1.rows[..3] == f.rows[..3];
      RemoveKeepsLayout(f.rows, 3);
      RemoveRowsAfterThird(f1)
  }
}

=== FILE: validation.dfy ===
/**
 Input validation and submit-readiness: the character limit on search text,
 the date-range format check, the two shared error banners and the rule that
 enables the submit control.
 */
module Validation {
  import opened JsString
  import opened FormState

  /** Some row holds text once whitespace is trimmed away. */
  predicate HasSearchText(rows: seq<Row>) {
    exists i :: 0 <= i < |rows| && Trim(rows[i].text) != []
  }

  /** No row's trimmed text is longer than the limit. */
  predicate TextWithinLimit(rows: seq<Row>) {
    forall i :: 0 <= i < |rows| ==> JsLength(Trim(rows[i].text)) <= LimitCharacters
  }

  /** In `between` mode both bounds are filled in and neither is flagged. */
  predicate RangeComplete(d: DateInputs) {
    d.mode == Between ==>
      && d.start.value != [] && !d.start.error
      && d.end.value != [] && !d.end.error
  }

  /** When the submit control should be enabled: something to search for, and nothing invalid. */
  predicate ReadyToSubmit(rows: seq<Row>, d: DateInputs) {
    && (HasSearchText(rows) || d.mode != All)
    && TextWithinLimit(rows)
    && RangeComplete(d)
  }

  /**
   The loop over the search texts from row `i` on: the pair (`isHadValue`,
   `isValidated`), stopping at the first non-empty trimmed text over the limit.
   */
  function ScanTexts(rows: seq<Row>, i: nat, hadValue: bool): (r: (bool, bool))
    requires i <= |rows|
    ensures r.1 <==> forall k :: i <= k < |rows| ==> JsLength(Trim(rows[k].text)) <= LimitCharacters
    ensures r.1 ==> (r.0 <==> hadValue || exists k :: i <= k < |rows| && Trim(rows[k].text) != [])
    decreases |rows| - i
  {
    if i == |rows| then (hadValue, true)
    else
      var item := Trim(rows[i].text);
      if item == [] then ScanTexts(rows, i + 1, hadValue)
      else if JsLength(item) > LimitCharacters then (true, false)
      else ScanTexts(rows, i + 1, true)
  }

  /** Scanning from the first row decides the limit and the presence of text. */
  lemma ScanFromFirstRow(rows: seq<Row>)
    ensures ScanTexts(rows, 0, false).1 <==> TextWithinLimit(rows)
    ensures ScanTexts(rows, 0, false).1 ==> (ScanTexts(rows, 0, false).0 <==> HasSearchText(rows))
  {
  }

  /** The decision `setStatusSearchButton` takes, as its code computes it. */
  function SearchButtonDecision(f: Form): (enabled: bool)
    ensures enabled <==> ReadyToSubmit(f.rows, f.date)
  {
    var scan := ScanTexts(f.rows, 0, false);
    var hadValue := scan.0;
    var validated := scan.1;
    ScanFromFirstRow(f.rows);
    var d := f.date;
    var rangeBroken := d.mode == Between &&
      (d.start.value == [] || d.start.error || d.end.value == [] || d.end.error);
    var isDateMatched := d.mode != All;
    (hadValue || isDateMatched) && validated && !rangeBroken
  }

  /** Enables or disables the submit control; nothing else changes. */
  function SetStatusSearchButton(f: Form): (g: Form)
    ensures g.submitEnabled <==> ReadyToSubmit(f.rows, f.date)
    ensures g == f.(submitEnabled := g.submitEnabled)
  {
    f.(submitEnabled := SearchButtonDecision(f))
  }

  /** The text banner is active exactly while some row is flagged. */
  predicate TextBannerConsistent(f: Form) {
    f.textBanner <==> AnyRowError(f.rows)
  }

  /** The date banner is shown exactly while some range bound is flagged. */
  predicate DateBannerConsistent(f: Form) {
    f.dateBanner <==> f.date.start.error || f.date.end.error
  }

  /** Flags row `k` and activates the text banner. */
  function ActivateTextError(f: Form, k: nat): (g: Form)
    requires k < |f.rows|
    ensures |g.rows| == |f.rows|
    ensures g.textBanner && g.rows[k].error
    ensures TextBannerConsistent(g)
    ensures forall i :: 0 <= i < |f.rows| && i != k ==> g.rows[i] == f.rows[i]
    ensures g.rows[k] == f.rows[k].(error := true)
    ensures g == f.(rows := g.rows, textBanner := g.textBanner)
  {
    f.(textBanner := true, rows := f.rows[k := f.rows[k].(error := true)])
  }

  /** Clears row `k`'s flag; the banner goes only when no row is flagged any more. */
  function DeactivateTextError(f: Form, k: nat): (g: Form)
    requires k < |f.rows|
    ensures |g.rows| == |f.rows|
    ensures !g.rows[k].error
    ensures TextBannerConsistent(f) ==> TextBannerConsistent(g)
    ensures g.textBanner ==> f.textBanner
    ensures forall i :: 0 <= i < |f.rows| && i != k ==> g.rows[i] == f.rows[i]
    ensures g.rows[k] == f.rows[k].(error := false)
    ensures g == f.(rows := g.rows, textBanner := g.textBanner)
  {
    var rows := f.rows[k := f.rows[k].(error := false)];
    assert forall i :: 0 <= i < |rows| && i != k ==> rows[i] == f.rows[i];
    f.(rows := rows, textBanner := if AnyRowError(rows) then f.textBanner else false)
  }

  /**
   The character limit on row `k`, checked on the raw value (whitespace
   included, in UTF-16 code units): the row is flagged exactly when it is over.
   */
  function SetTextLimitation(f: Form, k: nat): (g: Form)
    requires k < |f.rows|
    ensures |g.rows| == |f.rows|
    ensures g.rows[k].error <==> JsLength(f.rows[k].text) > LimitCharacters
    ensures g.rows[k] == f.rows[k].(error := g.rows[k].error)
    ensures forall i :: 0 <= i < |f.rows| && i != k ==> g.rows[i] == f.rows[i]
    ensures TextBannerConsistent(f) ==> TextBannerConsistent(g)
    ensures g == f.(rows := g.rows, textBanner := g.textBanner)
  {
    if JsLength(f.rows[k].text) > LimitCharacters then ActivateTextError(f, k)
    else DeactivateTextError(f, k)
  }

  /**
   Checks one range bound on change: an empty value passes, any other must
   satisfy `validFormat` (the calendar library's `DD/MM/YYYY` parse check).
   A failing bound is flagged and the date banner shown; a passing bound is
   cleared, and the banner hidden once neither bound is flagged.
   */
  function ValidateDateRange(f: Form, b: Bound, validFormat: string -> bool): (g: Form)
    ensures var v := f.date.Input(b).value;
      g.date.Input(b).error <==> v != [] && !validFormat(v)
    ensures g.date == f.date.WithInput(b, f.date.Input(b).(error := g.date.Input(b).error))
    ensures g.date.Input(b).error ==> g.dateBanner
    ensures DateBannerConsistent(f) ==> DateBannerConsistent(g)
    ensures g == f.(date := g.date, dateBanner := g.dateBanner)
  {
    var x := f.date.Input(b);
    var isValid := if x.value != [] then validFormat(x.value) else true;
    if !isValid then
      f.(date := f.date.WithInput(b, x.(error := true)), dateBanner := true)
    else
      var d := f.date.WithInput(b, x.(error := false));
      f.(date := d, dateBanner := if d.start.error || d.end.error then f.dateBanner else false)
  }
}
